=== FILE: README.md ===
# aspect-flow: ratio/pixel calculator model

This project models the core of aspect-flow, a single React component
(`src/App.jsx`) that keeps an aspect ratio (ratioW:ratioH) and a pixel size
(pxW x pxH) in step. It also exports a preview PNG that shows the size.

- `Rounding` covers the two derivation helpers, calcHeight and calcWidth. It
  computes them in exact arithmetic, with Math.round as floor(x + 1/2).
- `Text` covers how a number becomes text in a template literal or in
  fillText, and how a run of decimal digits is read back.
- `Presets` covers the catalogue of eleven ratio presets and the test that
  highlights a preset button.
- `Sync` covers the four state cells and the five input handlers. It has pure
  transitions over a `Dims` snapshot, and a `Calculator` class whose fields are
  the cells and whose methods are the handlers. Each method is specified by the
  matching transition.
- `Preview` covers downloadPreview. The export is modelled as the ordered list
  of drawing commands (background, width indicator, height indicator, ratio
  watermark), plus the canvas size and the download file name.

JavaScript numbers are modelled as exact reals. An empty number input reads as
0 (`Sync.Field.Empty`). Each handler reads the cell values
of the render that created it, and its setters take effect at the next render.
The methods mirror this by reading the old field values.

Two edge behaviours of the code:

- The export guard `!pxW || !pxH` refuses only a size of exactly 0. A negative
  size still produces an image.
- Math.round rounds halves toward +infinity. For example, -2.5 becomes -2, not
  -3.

## Model

| member | source | states |
|---|---|---|
| Rounding.Round | src/App.jsx:18-20 | Math.round gives the whole number n with x at most half a unit below n and strictly less than half a unit above it, so halves round up (2.5 gives 3) |
| Rounding.RoundsToUnique | src/App.jsx:18-20 | that nearest whole number is unique |
| Rounding.CalcHeight | src/App.jsx:18 | calcHeight(w, rW, rH) is w·rH/rW rounded to the nearest whole number |
| Rounding.CalcWidth | src/App.jsx:20 | calcWidth(h, rW, rH) is h·rW/rH rounded to the nearest whole number |
| Rounding.CalcHeightCharacterised | src/App.jsx:18 | a value equals calcHeight exactly when it is the rounded scaled width (both directions) |
| Rounding.CalcWidthCharacterised | src/App.jsx:20 | a value equals calcWidth exactly when it is the rounded scaled height (both directions) |
| Rounding.CalcWidthMirrorsCalcHeight | src/App.jsx:18-20 | calcWidth at rW:rH is calcHeight at the swapped ratio rH:rW |
| Rounding.HeightThenWidthClose | src/App.jsx:18-20 | on a ratio taller than wide, deriving a height and then a width from it lands within 1 of the starting width |
| Rounding.WidthThenHeightClose | src/App.jsx:18-20 | on a ratio wider than tall, deriving a width and then a height lands within 1 of the starting height |
| Rounding.WidthSurvivesHeightRoundTrip | src/App.jsx:18-20 | for a whole width on a ratio with rW ≤ rH, calcWidth(calcHeight(w)) gives w back exactly |
| Rounding.HeightSurvivesWidthRoundTrip | src/App.jsx:18-20 | for a whole height on a ratio with rH ≤ rW, calcHeight(calcWidth(h)) gives h back exactly |
| Rounding.RoundOfQuotient | src/App.jsx:18 | Math.round(p/d) for whole p and positive whole d is (2p + d) div 2d |
| Rounding.CalcHeightInIntegers | src/App.jsx:18 | with whole inputs, calcHeight is the integer expression (2·w·rH + rW) div (2·rW) |
| Rounding.CalcWidthInIntegers | src/App.jsx:20 | with whole inputs, calcWidth is (2·h·rW + rH) div (2·rH) |
| Text.DigitChar | src/App.jsx:125 | the character printed for a digit is a decimal digit that denotes it |
| Text.NatText | src/App.jsx:125 | a whole number prints as a non-empty run of digits with no leading zero, and 0 prints as "0" |
| Text.NatTextRoundTrip | src/App.jsx:161 | reading the digits printed for n gives n back |
| Text.NatTextInjective | src/App.jsx:161 | different whole numbers print differently |
| Text.FractionText | src/App.jsx:157 | the fraction digits are at most the digit budget, are all digits, and are empty exactly for a zero fraction or a zero digit budget |
| Text.FractionTextComplete | src/App.jsx:157 | the fraction digits stop before the budget is spent only when they are the complete expansion, and then the last one is not 0 |
| Text.FractionTextTruncates | src/App.jsx:157 | the fraction digits are the decimal expansion of the fraction cut after their count: read as a whole number they are f·10^n rounded down |
| Text.NumberText | src/App.jsx:125 | String(x) starts with a minus sign exactly when x is negative, and is otherwise made of digits and a decimal point, so it never holds ':' or 'x' |
| Text.NegativeText | src/App.jsx:157 | a negative number prints as a minus sign before the text of its magnitude |
| Text.NumberTextReadsBack | src/App.jsx:157 | for a non-negative number, the digits before the first point denote its integer part, the 1 to 20 digits after it are its fraction cut after that many places, and all of it with no trailing zero unless all 20 are used, and a point appears exactly when the number is not whole |
| Text.NumberTextOfNat | src/App.jsx:125 | a whole non-negative number prints as its plain numeral, with no point |
| Text.IndexOf | src/App.jsx:161 | the first occurrence of a character, or the length when it is absent |
| Text.IndexOfAfter | src/App.jsx:157-161 | a separator missing from the text before it is found right after that text, which is what splits a watermark or a file name back into its two numbers |
| Presets.CatalogueWellFormed | src/App.jsx:166-178 | the catalogue has eleven presets, each with two positive parts, and no two share both parts |
| Presets.IsActive | src/App.jsx:265 | a preset is highlighted by strict equality of both ratio parts, so only a whole, non-negative ratio can highlight one |
| Presets.ActiveUnique | src/App.jsx:265 | two highlighted presets are the same preset |
| Presets.ActivePresets | src/App.jsx:265 | a preset is highlighted exactly when both ratio parts equal its own, and at most one is highlighted |
| Presets.InitialRatioHighlightsVideo | src/App.jsx:7-8 | the starting ratio 16:9 highlights exactly the first preset, captioned "16:9" |
| Sync.HeightFollowsMeansNearest | src/App.jsx:18 | the height follows the width exactly when it is the width scaled by the ratio and rounded |
| Sync.WidthFollowsMeansNearest | src/App.jsx:20 | the width follows the height exactly when it is the height scaled by the ratio and rounded |
| Sync.InitialConsistent | src/App.jsx:7-10 | 16:9 at 1920 x 1080 is consistent whichever side is the anchor |
| Sync.ToNumber | src/App.jsx:24-25 | Number() of an input reads the typed value, and an empty input reads as 0, which never passes a handler's guard |
| Sync.RatioChanged | src/App.jsx:23-31 | the ratio becomes the numbers read and the width is kept; if the ratio and width are non-zero the height follows the width, otherwise it is kept |
| Sync.PresetClicked | src/App.jsx:33-39 | the ratio becomes the preset and the width is kept; if the width is non-zero the height follows it, otherwise it is kept |
| Sync.PxWChanged | src/App.jsx:41-47 | the width becomes the number read and the ratio is kept; if the width and ratio are non-zero the height follows, otherwise it is kept |
| Sync.PxHChanged | src/App.jsx:49-55 | the height becomes the number read and the ratio is kept; if the height and ratio are non-zero the width follows, otherwise it is kept |
| Sync.Swapped | src/App.jsx:57-66 | the two ratio parts are exchanged and the two pixel sizes are exchanged, with nothing re-derived |
| Sync.SwapMovesDerivedAxis | src/App.jsx:57-66 | swapping turns "height follows width" into "width follows height", and the other way round |
| Sync.SwapInvolution | src/App.jsx:57-66 | swapping twice restores the exact state |
| Sync.PresetFourFiveFromInitial | src/App.jsx:33-39 | preset 4:5 on the starting state gives 4:5 at 1920 x 2400 |
| Sync.PresetClickHighlightsIt | src/App.jsx:263-265 | every catalogue preset can be clicked, and clicking it highlights exactly that preset |
| Sync.HeightReentryKeepsWidth | src/App.jsx:41-55 | on a ratio with rW ≤ rH, typing a whole, non-zero width and then re-typing the height it produced changes nothing |
| Sync.WidthReentryKeepsHeight | src/App.jsx:41-55 | on a ratio with rH ≤ rW, typing a whole, non-zero height and then re-typing the width it produced changes nothing |
| Sync.WidthDriftsOnWideRatio | src/App.jsx:41-55 | at 16:9, width 1921 derives height 1081, and re-typing 1081 derives width 1922, so the anchor drifts |
| Sync.Calculator.constructor | src/App.jsx:7-10 | the cells start at 16, 9, 1920 and 1080, a consistent state |
| Sync.Calculator.HandleRatioChange | src/App.jsx:23-31 | the new cell values are those of Sync.RatioChanged applied to the old ones |
| Sync.Calculator.HandlePresetClick | src/App.jsx:33-39 | the new cell values are those of Sync.PresetClicked applied to the old ones |
| Sync.Calculator.HandlePxWChange | src/App.jsx:41-47 | the new cell values are those of Sync.PxWChanged applied to the old ones |
| Sync.Calculator.HandlePxHChange | src/App.jsx:49-55 | the new cell values are those of Sync.PxHChanged applied to the old ones |
| Sync.Calculator.HandleSwap | src/App.jsx:57-66 | the ratio parts are exchanged and the pixel sizes are exchanged, with nothing re-derived |
| Preview.LayoutFor | src/App.jsx:91-94 | padding is 5% of the shorter side and font size is 2.4 times the padding; line width is the larger of 2 and 0.5% of the shorter side; arrow size is 6 line widths, at least 12; on a positive canvas the padding is positive and fits twice within the shorter side |
| Preview.ThinLineUpTo400 | src/App.jsx:92 | the line width stays at 2 exactly while the shorter side is at most 400 |
| Preview.LayoutScales | src/App.jsx:91-93 | scaling the canvas by k scales the padding and the font size by k |
| Preview.WidthIndicator | src/App.jsx:104-125 | the dashed guide runs from (p, p) to (pxW−p, p); a right-pointing arrowhead has its tip at the guide's end and its wings at p ± 0.6·arrowSize, one arrow size back; the origin dot sits at (p, p); the right-aligned width label hangs 8 line widths below the guide's end; on a positive canvas the guide lies inside it |
| Preview.ToScreen | src/App.jsx:145-150 | translate-then-rotate keeps every point's distance from the anchor; unturned it is a plain offset, and a quarter turn left sends the label's x axis up the canvas |
| Preview.HeightIndicator | src/App.jsx:130-150 | the dashed guide runs from (p, p) to (p, pxH−p); a down-pointing arrowhead has its tip at the guide's end; the height label is turned a quarter turn counter-clockwise at 8 line widths right of the guide's end; on a positive canvas the guide lies inside it |
| Preview.GuidesShareOrigin | src/App.jsx:106-132 | both guides and the origin dot meet at (p, p) |
| Preview.WidthLabelClearsGuide | src/App.jsx:100-125 | every glyph of the top-baseline width label lies below the width guide's stroke |
| Preview.HeightLabelReadsUpward | src/App.jsx:145-150 | the rotated height label starts at the guide's lower end, runs upward, and lies right of the guide's stroke |
| Preview.Watermark | src/App.jsx:157 | the first ':' of the watermark splits it into the text of ratioW before and the text of ratioH after |
| Preview.WatermarkReadsBack | src/App.jsx:157 | for whole ratio parts, the digits on either side of the colon read back as ratioW and ratioH |
| Preview.WatermarkLabel | src/App.jsx:153-157 | the watermark is an upright label centred at (pxW/2, pxH/2), aligned to its centre and middle, at half the font size |
| Preview.FileName | src/App.jsx:161 | the download name starts with "Lumina-" and ends with ".png" |
| Preview.FileNameRoundTrip | src/App.jsx:161 | for whole sizes, the file name parses back to exactly that width and height |
| Preview.FileNamesDistinct | src/App.jsx:161 | different whole sizes are saved under different names |
| Preview.DownloadPreview | src/App.jsx:75-161 | the export is refused exactly when a pixel size is 0; otherwise the canvas is pxW x pxH, with a gradient background over the whole canvas, the width indicator, the height indicator and the ratio watermark, under the name Lumina-{pxW}x{pxH}.png |
| Preview.Commands | src/App.jsx:83-157 | the layers are drawn background first and watermark last |
| Preview.DrawingOrder | src/App.jsx:83-157 | an export draws nine commands, the full-canvas gradient first and the centred watermark last |
| Preview.ExportDescribesItself | src/App.jsx:125-161 | for whole positive sizes, the file name and both size labels read back as the canvas's own width and height |
| Preview.WatermarkOfNats | src/App.jsx:157 | for whole ratio parts the watermark is their two numerals joined by a colon |
| Preview.PresetCaptionIsWatermark | src/App.jsx:157-178 | for every preset, the watermark printed at its ratio equals its caption |
| Preview.PresetExport | src/App.jsx:157-265 | an export taken while a preset is highlighted carries that preset's caption as its watermark, and its name parses back to its whole size |
| Preview.InitialLayout | src/App.jsx:91-94 | on the starting 1920 x 1080 canvas the padding is 54, the line width 5.4, the font size 129.6 and the arrow size 32.4 |

## Left out

- The JSX and CSS layout, the hover flag, the logo URL and the live preview box are presentation only.
- copyToClipboard is left out, because clipboard access and the 2-second reset timer are browser I/O.
- The canvas API is reduced to abstract draw commands. Colours, gradient stops, alpha, fonts and font weights, the dash array as an array, save/restore, PNG encoding and the download link click are not modelled.
- Canvas dimensions are not converted to integers. The image records the requested pxW x pxH, even when that is fractional or negative.
- IEEE-754 doubles are not modelled: every number is an exact real. Rounding error in w/(rW/rH), NaN from a non-numeric input, and Infinity are left out.
- Text.NumberText: exponent notation (numbers of 10^21 and above, or below 10^-6) is not produced, and at most 20 fraction digits are printed. JavaScript instead prints the shortest digits that round-trip.
- Sync.Calculator.HandlePresetClick requires non-zero preset parts. The source has no guard here, but every catalogue preset meets the requirement (Sync.PresetClickHighlightsIt).
- Preview.FileNameRoundTrip: proved for whole-pixel sizes only. A fractional or negative size prints with '.' or '-' and does not parse as digits.
- vite.config.js is build configuration and is not part of this model.

=== FILE: presets.dfy ===
/** The fixed catalogue of ratio presets and the test that highlights the current one. */
module Presets {

  datatype Preset = Preset(w: nat, h: nat, caption: string, sub: string)

  const Catalogue: seq<Preset> := [
    Preset(16, 9, "16:9", "Video"),
    Preset(9, 16, "9:16", "Story"),
    Preset(4, 5, "4:5", "IG Port"),
    Preset(1, 1, "1:1", "Square"),
    Preset(4, 3, "4:3", "Monitor"),
    Preset(3, 4, "3:4", "Tablet"),
    Preset(3, 2, "3:2", "DSLR"),
    Preset(2, 3, "2:3", "Pinterest"),
    Preset(21, 9, "21:9", "Cinema"),
    Preset(2, 1, "2:1", "Mobile"),
    Preset(1, 2, "1:2", "Split")
  ]

  /**
   * A preset button is highlighted when both ratio parts equal its own
   * exactly, so only a whole, non-negative ratio can highlight anything.
   */
  predicate IsActive(p: Preset, ratioW: real, ratioH: real): (b: bool)
    ensures b ==> ratioW >= 0.0 && ratioH >= 0.0
    ensures b ==> ratioW.Floor as real == ratioW && ratioH.Floor as real == ratioH
  {
    ratioW == p.w as real && ratioH == p.h as real
  }

  /** Every preset has two positive parts, and no two presets share both parts. */
  lemma CatalogueWellFormed()
    ensures |Catalogue| == 11
    ensures forall i :: 0 <= i < |Catalogue| ==> Catalogue[i].w > 0 && Catalogue[i].h > 0
    ensures forall i, j :: 0 <= i < j < |Catalogue| ==>
      Catalogue[i].w != Catalogue[j].w || Catalogue[i].h != Catalogue[j].h
  {
  }

  /** Two presets highlighted together are the same preset. */
  lemma ActiveUnique(ratioW: real, ratioH: real)
    ensures forall i: nat, j: nat ::
      (i < |Catalogue| && j < |Catalogue| &&
       IsActive(Catalogue[i], ratioW, ratioH) && IsActive(Catalogue[j], ratioW, ratioH)) ==> i == j
  {
    CatalogueWellFormed();
  }

  /** The indices of the highlighted presets: never more than one. */
  function ActivePresets(ratioW: real, ratioH: real): (r: set<nat>)
    ensures forall i: nat :: i in r <==> i < |Catalogue| && IsActive(Catalogue[i], ratioW, ratioH)
    ensures forall i, j :: i in r && j in r ==> i == j
  {
    ActiveUnique(ratioW, ratioH);
    set i: nat | i < |Catalogue| && IsActive(Catalogue[i], ratioW, ratioH)
  }

  /** The starting ratio 16:9 highlights exactly the first preset, "16:9". */
  lemma InitialRatioHighlightsVideo()
    ensures ActivePresets(16.0, 9.0) == {0}
    ensures Catalogue[0].caption == "16:9"
  {
    var r := ActivePresets(16.0, 9.0);
    assert 0 in r;
  }
}

=== FILE: preview.dfy ===
/**
 * The exported preview image, as the drawing commands downloadPreview
 * issues and the file name it downloads under. The canvas itself (colours,
 * fonts, alpha, PNG encoding) is not modelled; what is kept is the geometry of
 * each stroke and label, and the text each label and the file name carry.
 */
module Preview {
  import opened Rounding
  import opened Text
  import Presets
  import Sync

  datatype Option<T> = None | Some(value: T)

  datatype Point = Point(x: real, y: real)

  datatype Align = Left | Right | Center

  datatype Baseline = Top | Middle

  /** How a label's axes are turned before it is drawn: not at all, or a quarter turn counter-clockwise. */
  datatype Turn = Upright | QuarterLeft

  /** One thing drawn on the canvas. */
  datatype Command =
    | Gradient(from: Point, to: Point)
      // the background fill of the whole canvas, shaded along from -> to
    | Dashed(start: Point, end: Point, width: real, dash: real)
      // a dashed guide line; dashes and gaps are both `dash` long
    | Chevron(wingA: Point, tip: Point, wingB: Point, width: real)
      // a solid open arrowhead wingA -> tip -> wingB
    | Dot(center: Point, radius: real)
    | Label(text: string, anchor: Point, align: Align, baseline: Baseline, turn: Turn, size: real)
      // text drawn at anchor after turning the axes by `turn`

  /** The sizes every stroke and label is scaled by. */
  datatype Layout = Layout(padding: real, lineWidth: real, fontSize: real, arrowSize: real)

  /**
   * The downloaded picture: its size, the four layers drawn on it (see
   * Commands for their order), and its file name.
   */
  datatype Image = Image(width: real, height: real, background: Command, widthIndicator: seq<Command>,
                         heightIndicator: seq<Command>, watermark: Command, fileName: string)

  /** Everything drawn on the picture, in drawing order: later commands paint over earlier ones. */
  function Commands(img: Image): (cs: seq<Command>)
    ensures |cs| == 2 + |img.widthIndicator| + |img.heightIndicator|
    ensures cs[0] == img.background && cs[|cs| - 1] == img.watermark
  {
    [img.background] + img.widthIndicator + img.heightIndicator + [img.watermark]
  }

  function Min(a: real, b: real): (m: real)
    ensures m <= a && m <= b && (m == a || m == b)
  {
    if a <= b then a else b
  }

  function Max(a: real, b: real): (m: real)
    ensures m >= a && m >= b && (m == a || m == b)
  {
    if a >= b then a else b
  }

  /** The sizes derived from the shorter side of the canvas. */
  function LayoutFor(pxW: real, pxH: real): (l: Layout)
    ensures l.padding == Min(pxW, pxH) * 0.05 && l.fontSize == 2.4 * l.padding
    ensures l.lineWidth >= 2.0 && l.lineWidth >= Min(pxW, pxH) * 0.005
    ensures l.lineWidth == 2.0 || l.lineWidth == Min(pxW, pxH) * 0.005
    ensures l.arrowSize == 6.0 * l.lineWidth && l.arrowSize >= 12.0
    ensures pxW > 0.0 && pxH > 0.0 ==> 0.0 < l.padding && 2.0 * l.padding < Min(pxW, pxH)
  {
    var m := Min(pxW, pxH);
    var lineWidth := Max(2.0, m * 0.005);
    Layout(m * 0.05, lineWidth, m * 0.12, lineWidth * 6.0)
  }

  /** The line weight stays at its 2-pixel floor exactly while the shorter side is at most 400. */
  lemma ThinLineUpTo400(pxW: real, pxH: real)
    ensures LayoutFor(pxW, pxH).lineWidth == 2.0 <==> Min(pxW, pxH) <= 400.0
  {
  }

  /** Padding and font size scale with the canvas: an image k times larger gets k times both. */
  lemma LayoutScales(pxW: real, pxH: real, k: real)
    requires k > 0.0
    ensures LayoutFor(k * pxW, k * pxH).padding == k * LayoutFor(pxW, pxH).padding
    ensures LayoutFor(k * pxW, k * pxH).fontSize == k * LayoutFor(pxW, pxH).fontSize
  {
    assert Min(k * pxW, k * pxH) == k * Min(pxW, pxH) by {
      if pxW <= pxH {
        assert k * pxW <= k * pxH;
      } else {
        assert k * pxH < k * pxW;
      }
    }
  }

  /** A point strictly inside a canvas of the given size. */
  predicate Inside(q: Point, width: real, height: real) {
    0.0 < q.x < width && 0.0 < q.y < height
  }

  /** An arrowhead whose tip points in the +x direction, its wings symmetric about the tip. */
  predicate PointsRight(c: Command) {
    c.Chevron? && c.wingA.x == c.wingB.x < c.tip.x &&
    c.wingA.y < c.tip.y < c.wingB.y && c.tip.y - c.wingA.y == c.wingB.y - c.tip.y
  }

  /** An arrowhead whose tip points in the +y direction (down the canvas), its wings symmetric. */
  predicate PointsDown(c: Command) {
    c.Chevron? && c.wingA.y == c.wingB.y < c.tip.y &&
    c.wingA.x < c.tip.x < c.wingB.x && c.tip.x - c.wingA.x == c.wingB.x - c.tip.x
  }

  /**
   * Where a point given in a label's own axes lands on the canvas: translate to
   * the anchor, then turn by -90 degrees for a quarter turn left. Distances
   * from the anchor are kept; turned, the label's x axis points up the canvas.
   */
  function ToScreen(anchor: Point, turn: Turn, local: Point): (q: Point)
    ensures (q.x - anchor.x) * (q.x - anchor.x) + (q.y - anchor.y) * (q.y - anchor.y)
            == local.x * local.x + local.y * local.y
    ensures turn == Upright ==> q.x - anchor.x == local.x && q.y - anchor.y == local.y
    ensures turn == QuarterLeft ==> q.y - anchor.y == -local.x && q.x - anchor.x == local.y
  {
    match turn
    case Upright => Point(anchor.x + local.x, anchor.y + local.y)
    case QuarterLeft => Point(anchor.x + local.y, anchor.y - local.x)
  }

  /**
   * The width indicator along the top edge: a dashed guide, its arrowhead, the
   * origin dot and the width label.
   */
  function WidthIndicator(pxW: real, pxH: real): (r: seq<Command>)
    ensures |r| == 4 && r[0].Dashed? && r[2].Dot? && r[3].Label?
    ensures var l := LayoutFor(pxW, pxH);
      && r[0].start == Point(l.padding, l.padding)
      && r[0].end == Point(pxW - l.padding, l.padding)
      && r[0].width == l.lineWidth && r[0].dash == 4.0 * l.lineWidth
      && PointsRight(r[1]) && r[1].tip == r[0].end && r[1].width == l.lineWidth
      && r[1].tip.x - r[1].wingA.x == l.arrowSize
      && r[1].tip.y - r[1].wingA.y == 0.6 * l.arrowSize
      && r[2].center == r[0].start && r[2].radius == 2.0 * l.lineWidth
      && r[3].text == NumberText(pxW) && r[3].size == l.fontSize
      && r[3].align == Right && r[3].baseline == Top && r[3].turn == Upright
      && r[3].anchor == Point(r[0].end.x, r[0].end.y + 8.0 * l.lineWidth)
    ensures pxW > 0.0 && pxH > 0.0 ==>
      Inside(r[0].start, pxW, pxH) && Inside(r[0].end, pxW, pxH) && r[0].start.x < r[0].end.x
  {
    var l := LayoutFor(pxW, pxH);
    var p, a := l.padding, l.arrowSize;
    [ Dashed(Point(p, p), Point(pxW - p, p), l.lineWidth, l.lineWidth * 4.0),
      Chevron(Point(pxW - p - a, p - a * 0.6), Point(pxW - p, p), Point(pxW - p - a, p + a * 0.6), l.lineWidth),
      Dot(Point(p, p), l.lineWidth * 2.0),
      Label(NumberText(pxW), Point(pxW - p, p + l.lineWidth * 8.0), Right, Top, Upright, l.fontSize) ]
  }

  /**
   * The height indicator along the left edge: a dashed guide, its arrowhead and
   * the height label, turned to read upwards.
   */
  function HeightIndicator(pxW: real, pxH: real): (r: seq<Command>)
    ensures |r| == 3 && r[0].Dashed? && r[2].Label?
    ensures var l := LayoutFor(pxW, pxH);
      && r[0].start == Point(l.padding, l.padding)
      && r[0].end == Point(l.padding, pxH - l.padding)
      && r[0].width == l.lineWidth && r[0].dash == 4.0 * l.lineWidth
      && PointsDown(r[1]) && r[1].tip == r[0].end && r[1].width == l.lineWidth
      && r[1].tip.y - r[1].wingA.y == l.arrowSize
      && r[1].tip.x - r[1].wingA.x == 0.6 * l.arrowSize
      && r[2].text == NumberText(pxH) && r[2].size == l.fontSize
      && r[2].align == Left && r[2].baseline == Top && r[2].turn == QuarterLeft
      && r[2].anchor == Point(r[0].end.x + 8.0 * l.lineWidth, r[0].end.y)
    ensures pxW > 0.0 && pxH > 0.0 ==>
      Inside(r[0].start, pxW, pxH) && Inside(r[0].end, pxW, pxH) && r[0].start.y < r[0].end.y
  {
    var l := LayoutFor(pxW, pxH);
    var p, a := l.padding, l.arrowSize;
    [ Dashed(Point(p, p), Point(p, pxH - p), l.lineWidth, l.lineWidth * 4.0),
      Chevron(Point(p - a * 0.6, pxH - p - a), Point(p, pxH - p), Point(p + a * 0.6, pxH - p - a), l.lineWidth),
      Label(NumberText(pxH), Point(p + l.lineWidth * 8.0, pxH - p), Left, Top, QuarterLeft, l.fontSize) ]
  }

  /** Both guides start at the origin dot: the indicators meet in the top-left corner. */
  lemma GuidesShareOrigin(pxW: real, pxH: real)
    ensures WidthIndicator(pxW, pxH)[0].start == HeightIndicator(pxW, pxH)[0].start
    ensures WidthIndicator(pxW, pxH)[2].center == HeightIndicator(pxW, pxH)[0].start
  {
  }

  /**
   * The width label hangs from its top edge below the width guide: every glyph
   * point lies further down than the guide's stroke reaches.
   */
  lemma WidthLabelClearsGuide(pxW: real, pxH: real, local: Point)
    requires local.y >= 0.0
    ensures var r := WidthIndicator(pxW, pxH);
      ToScreen(r[3].anchor, r[3].turn, local).y > r[0].start.y + r[0].width
  {
  }

  /**
   * The turned height label starts at the bottom end of the height guide and
   * reads upwards, its glyphs to the right of the guide's stroke.
   */
  lemma HeightLabelReadsUpward(pxW: real, pxH: real, local: Point)
    requires local.y >= 0.0
    ensures var r := HeightIndicator(pxW, pxH);
      var q := ToScreen(r[2].anchor, r[2].turn, local);
      q.y == r[0].end.y - local.x && q.x > r[0].start.x + r[0].width
  {
  }

  /** The ratio watermark text, e.g. "16:9". */
  function Watermark(ratioW: real, ratioH: real): (t: string)
    ensures var k := IndexOf(t, ':');
      k < |t| && t[..k] == NumberText(ratioW) && t[k + 1..] == NumberText(ratioH)
  {
    IndexOfAfter(NumberText(ratioW), ':', NumberText(ratioH));
    NumberText(ratioW) + ":" + NumberText(ratioH)
  }

  const Prefix := "Lumina-"
  const Suffix := ".png"

  /** The download name, e.g. "Lumina-1920x1080.png". */
  function FileName(pxW: real, pxH: real): (name: string)
    ensures |name| > |Prefix| + |Suffix|
    ensures name[..|Prefix|] == Prefix && name[|name| - |Suffix|..] == Suffix
  {
    Prefix + NumberText(pxW) + "x" + NumberText(pxH) + Suffix
  }

  /** Reads the width and height back out of a name of the form Lumina-<digits>x<digits>.png. */
  function ParseFileName(name: string): Option<(nat, nat)> {
    if |name| < |Prefix| + |Suffix| || name[..|Prefix|] != Prefix || name[|name| - |Suffix|..] != Suffix then None
    else
      var mid := name[|Prefix|..|name| - |Suffix|];
      var k := IndexOf(mid, 'x');
      if k == |mid| then None
      else
        var a, b := mid[..k], mid[k + 1..];
        if a == [] || b == [] || !AllDigits(a) || !AllDigits(b) then None
        else Some((DigitsValue(a), DigitsValue(b)))
  }

  /** A whole-pixel export's file name gives its width and height back. */
  lemma FileNameRoundTrip(w: nat, h: nat)
    ensures ParseFileName(FileName(w as real, h as real)) == Some((w, h))
  {
    NumberTextOfNat(w);
    NumberTextOfNat(h);
    var name := FileName(w as real, h as real);
    var a, b := NatText(w), NatText(h);
    assert name == Prefix + (a + "x" + b) + Suffix;
    var mid := name[|Prefix|..|name| - |Suffix|];
    assert mid == a + "x" + b;
    IndexOfAfter(a, 'x', b);
    assert mid[..|a|] == a;
    assert mid[|a| + 1..] == b;
    NatTextRoundTrip(w);
    NatTextRoundTrip(h);
  }

  /** Different whole-pixel sizes are never saved under the same name. */
  lemma FileNamesDistinct(w1: nat, h1: nat, w2: nat, h2: nat)
    requires (w1, h1) != (w2, h2)
    ensures FileName(w1 as real, h1 as real) != FileName(w2 as real, h2 as real)
  {
    FileNameRoundTrip(w1, h1);
    FileNameRoundTrip(w2, h2);
  }

  /** The ratio watermark: faint text centred on the canvas at half the font size. */
  function WatermarkLabel(s: Sync.Dims): (c: Command)
    ensures c.Label? && c.text == Watermark(s.ratioW, s.ratioH)
    ensures 2.0 * c.anchor.x == s.pxW && 2.0 * c.anchor.y == s.pxH
    ensures c.align == Center && c.baseline == Middle && c.turn == Upright
    ensures 2.0 * c.size == LayoutFor(s.pxW, s.pxH).fontSize
  {
    Label(Watermark(s.ratioW, s.ratioH), Point(s.pxW / 2.0, s.pxH / 2.0), Center, Middle, Upright,
          LayoutFor(s.pxW, s.pxH).fontSize * 0.5)
  }

  /**
   * downloadPreview: nothing when either pixel size is 0, otherwise a canvas of
   * pxW x pxH holding the background, the width indicator, the height
   * indicator and the ratio watermark.
   */
  function DownloadPreview(s: Sync.Dims): (r: Option<Image>)
    ensures r.None? <==> !Truthy(s.pxW) || !Truthy(s.pxH)
    ensures r.Some? ==>
      && r.value.width == s.pxW && r.value.height == s.pxH
      && r.value.background == Gradient(Point(0.0, 0.0), Point(s.pxW, s.pxH))
      && r.value.widthIndicator == WidthIndicator(s.pxW, s.pxH)
      && r.value.heightIndicator == HeightIndicator(s.pxW, s.pxH)
      && r.value.watermark == WatermarkLabel(s)
      && r.value.fileName == FileName(s.pxW, s.pxH)
  {
    if !Truthy(s.pxW) || !Truthy(s.pxH) then None
    else
      Some(Image(s.pxW, s.pxH, Gradient(Point(0.0, 0.0), Point(s.pxW, s.pxH)),
                 WidthIndicator(s.pxW, s.pxH), HeightIndicator(s.pxW, s.pxH), WatermarkLabel(s),
                 FileName(s.pxW, s.pxH)))
  }

  /**
   * An export draws nine commands: first the background covering the whole
   * canvas, last the watermark over everything else.
   */
  lemma DrawingOrder(s: Sync.Dims)
    requires DownloadPreview(s).Some?
    ensures var cs := Commands(DownloadPreview(s).value);
      && |cs| == 9
      && cs[0] == Gradient(Point(0.0, 0.0), Point(s.pxW, s.pxH))
      && cs[8] == WatermarkLabel(s)
  {
  }

  /**
   * For a whole-pixel export the picture describes itself: the file name and
   * the two size labels read back as the canvas's own width and height.
   */
  lemma ExportDescribesItself(s: Sync.Dims, w: nat, h: nat)
    requires s.pxW == w as real && s.pxH == h as real && w > 0 && h > 0
    ensures DownloadPreview(s).Some?
    ensures var img := DownloadPreview(s).value;
      && ParseFileName(img.fileName) == Some((w, h))
      && img.widthIndicator[3].text == NatText(w) && DigitsValue(img.widthIndicator[3].text) == w
      && img.heightIndicator[2].text == NatText(h) && DigitsValue(img.heightIndicator[2].text) == h
  {
    FileNameRoundTrip(w, h);
    NumberTextOfNat(w);
    NumberTextOfNat(h);
    NatTextRoundTrip(w);
    NatTextRoundTrip(h);
  }

  /**
   * For whole ratio parts the watermark reads back as the ratio: the digits
   * before the colon denote ratioW, the digits after it ratioH.
   */
  lemma WatermarkReadsBack(a: nat, b: nat)
    ensures var t := Watermark(a as real, b as real); var k := IndexOf(t, ':');
      && k < |t| && AllDigits(t[..k]) && AllDigits(t[k + 1..])
      && DigitsValue(t[..k]) == a && DigitsValue(t[k + 1..]) == b
  {
    NumberTextOfNat(a);
    NumberTextOfNat(b);
    NatTextRoundTrip(a);
    NatTextRoundTrip(b);
  }

  /** For whole ratio parts the watermark is their two numerals around a colon. */
  lemma WatermarkOfNats(a: nat, b: nat)
    ensures Watermark(a as real, b as real) == NatText(a) + ":" + NatText(b)
  {
    NumberTextOfNat(a);
    NumberTextOfNat(b);
  }

  /** The numerals of the preset parts. */
  lemma SmallNumerals()
    ensures NatText(1) == "1" && NatText(2) == "2" && NatText(3) == "3" && NatText(4) == "4"
    ensures NatText(5) == "5" && NatText(9) == "9" && NatText(16) == "16" && NatText(21) == "21"
  {
    assert NatText(16) == NatText(1) + [DigitChar(6)];
    assert NatText(21) == NatText(2) + [DigitChar(1)];
  }

  /** With a preset's ratio applied, the exported watermark repeats that preset's caption. */
  lemma PresetCaptionIsWatermark(i: nat)
    requires i < |Presets.Catalogue|
    ensures var p := Presets.Catalogue[i]; Watermark(p.w as real, p.h as real) == p.caption
  {
    var p := Presets.Catalogue[i];
    WatermarkOfNats(p.w, p.h);
    SmallNumerals();
  }

  /**
   * An export taken while a preset is highlighted is named after its whole
   * pixel size and carries that preset's caption as its watermark.
   */
  lemma PresetExport(s: Sync.Dims, i: nat, w: nat, h: nat)
    requires i < |Presets.Catalogue| && Presets.IsActive(Presets.Catalogue[i], s.ratioW, s.ratioH)
    requires s.pxW == w as real && s.pxH == h as real && w > 0 && h > 0
    ensures DownloadPreview(s).Some?
    ensures var img := DownloadPreview(s).value;
      ParseFileName(img.fileName) == Some((w, h)) && img.watermark.text == Presets.Catalogue[i].caption
  {
    ExportDescribesItself(s, w, h);
    PresetCaptionIsWatermark(i);
  }

  /** On the starting 1920 x 1080 canvas the shorter side, 1080, sets every size. */
  lemma InitialLayout()
    ensures LayoutFor(1920.0, 1080.0) == Layout(54.0, 5.4, 129.6, 32.4)
  {
  }
}

=== FILE: rounding.dfy ===
/**
 * Exact arithmetic behind the two derivation helpers of the ratio/pixel
 * calculator. JavaScript numbers are modelled as exact reals. Math.round(x) is
 * floor(x + 1/2): the nearest integer, with halves rounded toward +infinity.
 */
module Rounding {

  /** JavaScript truthiness of a finite number: everything except 0. */
  predicate Truthy(x: real) {
    x != 0.0
  }

  /** x is a whole number. */
  predicate Whole(x: real) {
    x == x.Floor as real
  }

  /** n is a whole number and the nearest one to x, with a tie going up. */
  predicate RoundsTo(x: real, n: real) {
    Whole(n) && n - 0.5 <= x < n + 0.5
  }

  /** Math.round */
  function Round(x: real): (n: real)
    ensures RoundsTo(x, n)
  {
    (x + 0.5).Floor as real
  }

  /** At most one whole number rounds from a given x. */
  lemma RoundsToUnique(x: real, n: real, m: real)
    requires RoundsTo(x, n) && RoundsTo(x, m)
    ensures n == m
  {
    var a, b := n.Floor, m.Floor;
    assert -1 < a - b < 1;
  }

  /** Two whole numbers less than one apart are equal. */
  lemma WholeClose(n: real, m: real)
    requires Whole(n) && Whole(m)
    requires n - 1.0 < m < n + 1.0
    ensures n == m
  {
    var a, b := n.Floor, m.Floor;
    assert -1 < a - b < 1;
  }

  /** Dividing by a ratio multiplies by its reciprocal. */
  lemma DivideByRatio(w: real, a: real, b: real)
    requires a != 0.0 && b != 0.0
    ensures w / (a / b) == w * b / a
  {
  }

  /** calcHeight(w, rW, rH) = Math.round(w / (rW / rH)): the height of width w at ratio rW:rH. */
  function CalcHeight(w: real, rW: real, rH: real): (h: real)
    requires rW != 0.0 && rH != 0.0
    ensures RoundsTo(w * rH / rW, h)
  {
    DivideByRatio(w, rW, rH);
    Round(w / (rW / rH))
  }

  /** calcWidth(h, rW, rH) = Math.round(h * (rW / rH)): the width of height h at ratio rW:rH. */
  function CalcWidth(h: real, rW: real, rH: real): (w: real)
    requires rW != 0.0 && rH != 0.0
    ensures RoundsTo(h * rW / rH, w)
  {
    assert h * (rW / rH) == h * rW / rH;
    Round(h * (rW / rH))
  }

  /** Dividing both sides of an inequality by a positive number keeps it. */
  lemma CancelPositive(a: real, b: real, d: real)
    requires d > 0.0
    ensures a * d <= b * d ==> a <= b
    ensures a * d < b * d ==> a < b
  {
    if a > b {
      assert (a - b) * d > 0.0;
    }
    if a >= b {
      assert (a - b) * d >= 0.0;
    }
  }

  /** A rounding error scaled by a factor strictly between 0 and 1 stays below a half. */
  lemma ShrinkError(e: real, t: real)
    requires -0.5 <= e < 0.5
    requires 0.0 < t < 1.0
    ensures -0.5 < e * t < 0.5
  {
    if e >= 0.0 {
      assert e * (1.0 - t) >= 0.0;
    } else {
      assert e * t < 0.0;
      assert e * (1.0 - t) < 0.0;
    }
  }

  /** Scaling by b/a undoes a scaling by a/b, carrying an error along. */
  lemma Rescale(y: real, e: real, a: real, b: real)
    requires a > 0.0 && b > 0.0
    ensures (y * a / b - e) * b / a == y - e * (b / a)
  {
    var k, t := a / b, b / a;
    assert k * t == 1.0;
    assert y * a / b == y * k;
    assert (y * k - e) * b / a == (y * k - e) * t;
    assert (y * k - e) * t == y * (k * t) - e * t;
  }

  /** a / b lies strictly between 0 and 1 when 0 < a < b. */
  lemma ProperFraction(a: real, b: real)
    requires 0.0 < a < b
    ensures 0.0 < a / b < 1.0
  {
    var f := a / b;
    assert f * b == a;
    var g := 1.0 - f;
    assert g * b == b - a;
    assert g * b > 0.0;
  }

  /**
   * Taking a value within a half of w*b/a and scaling it back by a/b lands
   * strictly within a half of w, when the scale factor b/a exceeds 1.
   */
  lemma ScaledBack(w: real, a: real, b: real, h: real)
    requires 0.0 < a < b
    requires h - 0.5 <= w * b / a < h + 0.5
    ensures w - 0.5 < h * a / b < w + 0.5
  {
    var e := w * b / a - h;
    ProperFraction(a, b);
    ShrinkError(e, a / b);
    Rescale(w, e, b, a);
    assert h * a / b == w - e * (a / b);
  }

  lemma HeightBounds(w: real, rW: real, rH: real)
    requires rW != 0.0 && rH != 0.0
    ensures CalcHeight(w, rW, rH) - 0.5 <= w * rH / rW < CalcHeight(w, rW, rH) + 0.5
  {
    assert RoundsTo(w * rH / rW, CalcHeight(w, rW, rH));
  }

  lemma WidthBounds(h: real, rW: real, rH: real)
    requires rW != 0.0 && rH != 0.0
    ensures CalcWidth(h, rW, rH) - 0.5 <= h * rW / rH < CalcWidth(h, rW, rH) + 0.5
  {
    assert RoundsTo(h * rW / rH, CalcWidth(h, rW, rH));
  }

  /** On a square ratio both derivations round their argument. */
  lemma SquareRatio(x: real, r: real)
    requires r != 0.0
    ensures CalcHeight(x, r, r) - 0.5 <= x < CalcHeight(x, r, r) + 0.5
    ensures CalcWidth(x, r, r) - 0.5 <= x < CalcWidth(x, r, r) + 0.5
  {
    HeightBounds(x, r, r);
    WidthBounds(x, r, r);
    assert x * r / r == x;
  }

  /** Width to height and back moves by less than one pixel on a taller-than-wide ratio. */
  lemma HeightThenWidthClose(w: real, rW: real, rH: real)
    requires 0.0 < rW < rH
    ensures w - 1.0 < CalcWidth(CalcHeight(w, rW, rH), rW, rH) < w + 1.0
  {
    var h := CalcHeight(w, rW, rH);
    HeightBounds(w, rW, rH);
    WidthBounds(h, rW, rH);
    ScaledBack(w, rW, rH, h);
  }

  /** Height to width and back moves by less than one pixel on a wider-than-tall ratio. */
  lemma WidthThenHeightClose(h: real, rW: real, rH: real)
    requires 0.0 < rH < rW
    ensures h - 1.0 < CalcHeight(CalcWidth(h, rW, rH), rW, rH) < h + 1.0
  {
    var w := CalcWidth(h, rW, rH);
    WidthBounds(h, rW, rH);
    HeightBounds(w, rW, rH);
    ScaledBack(h, rH, rW, w);
  }

  /**
   * When the ratio is at least as tall as it is wide, deriving the height of a
   * whole width and then the width of that height gives the width back.
   */
  lemma WidthSurvivesHeightRoundTrip(n: int, rW: real, rH: real)
    requires 0.0 < rW <= rH
    ensures CalcWidth(CalcHeight(n as real, rW, rH), rW, rH) == n as real
  {
    var w := n as real;
    var h := CalcHeight(w, rW, rH);
    if rW == rH {
      SquareRatio(w, rW);
      WholeClose(w, h);
      SquareRatio(h, rW);
      WholeClose(h, CalcWidth(h, rW, rH));
    } else {
      HeightThenWidthClose(w, rW, rH);
      WholeClose(w, CalcWidth(h, rW, rH));
    }
  }

  /**
   * When the ratio is at least as wide as it is tall, deriving the width of a
   * whole height and then the height of that width gives the height back.
   */
  lemma HeightSurvivesWidthRoundTrip(n: int, rW: real, rH: real)
    requires 0.0 < rH <= rW
    ensures CalcHeight(CalcWidth(n as real, rW, rH), rW, rH) == n as real
  {
    var h := n as real;
    var w := CalcWidth(h, rW, rH);
    if rW == rH {
      SquareRatio(h, rW);
      WholeClose(h, w);
      SquareRatio(w, rW);
      WholeClose(w, CalcHeight(w, rW, rH));
    } else {
      WidthThenHeightClose(h, rW, rH);
      WholeClose(h, CalcHeight(w, rW, rH));
    }
  }

  /**
   * The width of h at rW:rH is the height of h at the swapped ratio rH:rW:
   * the two helpers are mirror images of each other.
   */
  lemma CalcWidthMirrorsCalcHeight(h: real, rW: real, rH: real)
    requires rW != 0.0 && rH != 0.0
    ensures CalcWidth(h, rW, rH) == CalcHeight(h, rH, rW)
  {
    RoundsToUnique(h * rW / rH, CalcWidth(h, rW, rH), CalcHeight(h, rH, rW));
  }

  /** calcHeight's result is the one and only whole number nearest to w*rH/rW (ties up). */
  lemma CalcHeightCharacterised(w: real, rW: real, rH: real, h: real)
    requires rW != 0.0 && rH != 0.0
    ensures h == CalcHeight(w, rW, rH) <==> RoundsTo(w * rH / rW, h)
  {
    if RoundsTo(w * rH / rW, h) {
      RoundsToUnique(w * rH / rW, h, CalcHeight(w, rW, rH));
    }
  }

  /** calcWidth's result is the one and only whole number nearest to h*rW/rH (ties up). */
  lemma CalcWidthCharacterised(h: real, rW: real, rH: real, w: real)
    requires rW != 0.0 && rH != 0.0
    ensures w == CalcWidth(h, rW, rH) <==> RoundsTo(h * rW / rH, w)
  {
    if RoundsTo(h * rW / rH, w) {
      RoundsToUnique(h * rW / rH, w, CalcWidth(h, rW, rH));
    }
  }

  /** p / d lies within a half of q when 2qd - d <= 2p < 2qd + d. */
  lemma QuotientNear(P: real, D: real, Q: real)
    requires D > 0.0
    requires 2.0 * (Q * D) - D <= 2.0 * P < 2.0 * (Q * D) + D
    ensures Q - 0.5 <= P / D < Q + 0.5
  {
    var x, M := P / D, Q * D;
    assert x * D == P;
    assert (Q - 0.5) * D == M - 0.5 * D;
    assert (Q + 0.5) * D == M + 0.5 * D;
    CancelPositive(Q - 0.5, x, D);
    CancelPositive(x, Q + 0.5, D);
  }

  /** Converting a product to a real is the product of the conversions. */
  lemma CastProduct(a: int, b: int)
    ensures (a * b) as real == (a as real) * (b as real)
  {
  }

  /** Math.round(p / d) in exact integer arithmetic, for a positive divisor d. */
  lemma RoundOfQuotient(p: int, d: int)
    requires d > 0
    ensures RoundsTo(p as real / d as real, ((2 * p + d) / (2 * d)) as real)
  {
    var q := (2 * p + d) / (2 * d);
    assert q * (2 * d) <= 2 * p + d < q * (2 * d) + 2 * d;
    var m := q * d;
    assert 2 * m - d <= 2 * p < 2 * m + d;
    assert 2.0 * (m as real) - d as real <= 2.0 * (p as real) < 2.0 * (m as real) + d as real;
    CastProduct(q, d);
    QuotientNear(p as real, d as real, q as real);
  }

  /** A rounded quotient p / rW with p = w * rH is calcHeight(w, rW, rH). */
  lemma HeightFromQuotient(w: real, rW: real, rH: real, p: real, q: real)
    requires rW != 0.0 && rH != 0.0
    requires p == w * rH && RoundsTo(p / rW, q)
    ensures CalcHeight(w, rW, rH) == q
  {
    CalcHeightCharacterised(w, rW, rH, q);
  }

  /**
   * With whole numbers and a positive ratio width, calcHeight is the integer
   * expression (2*w*rH + rW) div (2*rW).
   */
  lemma CalcHeightInIntegers(w: int, rW: int, rH: int)
    requires rW > 0 && rH != 0
    ensures CalcHeight(w as real, rW as real, rH as real) == ((2 * w * rH + rW) / (2 * rW)) as real
  {
    assert 2 * w * rH + rW == 2 * (w * rH) + rW;
    CastProduct(w, rH);
    RoundOfQuotient(w * rH, rW);
    HeightFromQuotient(w as real, rW as real, rH as real, (w * rH) as real, ((2 * (w * rH) + rW) / (2 * rW)) as real);
  }

  /**
   * With whole numbers and a positive ratio height, calcWidth is the integer
   * expression (2*h*rW + rH) div (2*rH).
   */
  lemma CalcWidthInIntegers(h: int, rW: int, rH: int)
    requires rH > 0 && rW != 0
    ensures CalcWidth(h as real, rW as real, rH as real) == ((2 * h * rW + rH) / (2 * rH)) as real
  {
    CalcWidthMirrorsCalcHeight(h as real, rW as real, rH as real);
    CalcHeightInIntegers(h, rH, rW);
  }
}

=== FILE: sync.dfy ===
/**
 * The ratio/pixel synchronisation: four number cells (ratioW, ratioH, pxW, pxH)
 * and the five input handlers that keep them consistent. Each handler writes
 * the edited cell(s) and re-derives at most one other cell: editing the ratio,
 * applying a preset or editing the pixel width re-derives the pixel height;
 * editing the pixel height re-derives the pixel width; swapping exchanges
 * values verbatim.
 */
module Sync {
  import opened Rounding
  import Presets

  /** What Number(input.value) reads from a number input: an empty field is 0. */
  datatype Field = Empty | Typed(value: real)

  function ToNumber(f: Field): (n: real)
    ensures f.Typed? ==> n == f.value
    ensures f.Empty? ==> n == 0.0
    ensures Truthy(n) ==> f.Typed?
  {
    match f
    case Empty => 0.0
    case Typed(v) => v
  }

  /** A snapshot of the four cells. */
  datatype Dims = Dims(ratioW: real, ratioH: real, pxW: real, pxH: real)

  /** The cells' starting values: 16:9 at 1920 x 1080. */
  const Initial := Dims(16.0, 9.0, 1920.0, 1080.0)

  /** The pixel height is what calcHeight derives from the pixel width at the ratio. */
  predicate HeightFollowsWidth(s: Dims) {
    Truthy(s.ratioW) && Truthy(s.ratioH) && s.pxH == CalcHeight(s.pxW, s.ratioW, s.ratioH)
  }

  /** The pixel width is what calcWidth derives from the pixel height at the ratio. */
  predicate WidthFollowsHeight(s: Dims) {
    Truthy(s.ratioW) && Truthy(s.ratioH) && s.pxW == CalcWidth(s.pxH, s.ratioW, s.ratioH)
  }

  /** A height follows the width exactly when it is the width scaled by the ratio, rounded. */
  lemma HeightFollowsMeansNearest(s: Dims)
    requires Truthy(s.ratioW) && Truthy(s.ratioH)
    ensures HeightFollowsWidth(s) <==> RoundsTo(s.pxW * s.ratioH / s.ratioW, s.pxH)
  {
    CalcHeightCharacterised(s.pxW, s.ratioW, s.ratioH, s.pxH);
  }

  /** A width follows the height exactly when it is the height scaled by the ratio, rounded. */
  lemma WidthFollowsMeansNearest(s: Dims)
    requires Truthy(s.ratioW) && Truthy(s.ratioH)
    ensures WidthFollowsHeight(s) <==> RoundsTo(s.pxH * s.ratioW / s.ratioH, s.pxW)
  {
    CalcWidthCharacterised(s.pxH, s.ratioW, s.ratioH, s.pxW);
  }

  /** The starting state is consistent whichever axis is taken as the anchor. */
  lemma InitialConsistent()
    ensures HeightFollowsWidth(Initial) && WidthFollowsHeight(Initial)
  {
    CalcHeightInIntegers(1920, 16, 9);
    CalcWidthInIntegers(1080, 16, 9);
  }

  /** handleRatioChange(newW, newH) */
  function RatioChanged(s: Dims, newW: Field, newH: Field): (r: Dims)
    ensures r.ratioW == ToNumber(newW) && r.ratioH == ToNumber(newH) && r.pxW == s.pxW
    ensures Truthy(r.ratioW) && Truthy(r.ratioH) && Truthy(s.pxW) ==> HeightFollowsWidth(r)
    ensures !(Truthy(r.ratioW) && Truthy(r.ratioH) && Truthy(s.pxW)) ==> r.pxH == s.pxH
  {
    var w, h := ToNumber(newW), ToNumber(newH);
    if Truthy(w) && Truthy(h) && Truthy(s.pxW) then
      Dims(w, h, s.pxW, CalcHeight(s.pxW, w, h))
    else
      Dims(w, h, s.pxW, s.pxH)
  }

  /** handlePresetClick(w, h): the preset parts are never 0, so only the pixel width is tested. */
  function PresetClicked(s: Dims, w: real, h: real): (r: Dims)
    requires Truthy(w) && Truthy(h)
    ensures r.ratioW == w && r.ratioH == h && r.pxW == s.pxW
    ensures Truthy(s.pxW) ==> HeightFollowsWidth(r)
    ensures !Truthy(s.pxW) ==> r.pxH == s.pxH
  {
    if Truthy(s.pxW) then
      Dims(w, h, s.pxW, CalcHeight(s.pxW, w, h))
    else
      Dims(w, h, s.pxW, s.pxH)
  }

  /** handlePxWChange(v) */
  function PxWChanged(s: Dims, v: Field): (r: Dims)
    ensures r.pxW == ToNumber(v) && r.ratioW == s.ratioW && r.ratioH == s.ratioH
    ensures Truthy(r.pxW) && Truthy(s.ratioW) && Truthy(s.ratioH) ==> HeightFollowsWidth(r)
    ensures !(Truthy(r.pxW) && Truthy(s.ratioW) && Truthy(s.ratioH)) ==> r.pxH == s.pxH
  {
    var val := ToNumber(v);
    if Truthy(val) && Truthy(s.ratioW) && Truthy(s.ratioH) then
      Dims(s.ratioW, s.ratioH, val, CalcHeight(val, s.ratioW, s.ratioH))
    else
      Dims(s.ratioW, s.ratioH, val, s.pxH)
  }

  /** handlePxHChange(v): the one edit that re-derives the pixel width. */
  function PxHChanged(s: Dims, v: Field): (r: Dims)
    ensures r.pxH == ToNumber(v) && r.ratioW == s.ratioW && r.ratioH == s.ratioH
    ensures Truthy(r.pxH) && Truthy(s.ratioW) && Truthy(s.ratioH) ==> WidthFollowsHeight(r)
    ensures !(Truthy(r.pxH) && Truthy(s.ratioW) && Truthy(s.ratioH)) ==> r.pxW == s.pxW
  {
    var val := ToNumber(v);
    if Truthy(val) && Truthy(s.ratioW) && Truthy(s.ratioH) then
      Dims(s.ratioW, s.ratioH, CalcWidth(val, s.ratioW, s.ratioH), val)
    else
      Dims(s.ratioW, s.ratioH, s.pxW, val)
  }

  /** handleSwap: both pairs are exchanged verbatim. */
  function Swapped(s: Dims): (r: Dims)
    ensures r.ratioW == s.ratioH && r.ratioH == s.ratioW
    ensures r.pxW == s.pxH && r.pxH == s.pxW
  {
    Dims(s.ratioH, s.ratioW, s.pxH, s.pxW)
  }

  /**
   * Swapping turns the rectangle on its side: a height that followed the width
   * becomes a width that follows the height, and the other way round.
   */
  lemma SwapMovesDerivedAxis(s: Dims)
    ensures HeightFollowsWidth(s) <==> WidthFollowsHeight(Swapped(s))
    ensures WidthFollowsHeight(s) <==> HeightFollowsWidth(Swapped(s))
  {
    if Truthy(s.ratioW) && Truthy(s.ratioH) {
      CalcWidthMirrorsCalcHeight(s.pxW, s.ratioH, s.ratioW);
      CalcWidthMirrorsCalcHeight(s.pxH, s.ratioW, s.ratioH);
    }
  }

  /** Swapping twice restores the exact original state: nothing is re-derived. */
  lemma SwapInvolution(s: Dims)
    ensures Swapped(Swapped(s)) == s
  {
  }

  /** Preset 4:5 on the starting state keeps the width and derives 2400 for the height. */
  lemma PresetFourFiveFromInitial()
    ensures PresetClicked(Initial, 4.0, 5.0) == Dims(4.0, 5.0, 1920.0, 2400.0)
  {
    CalcHeightInIntegers(1920, 4, 5);
  }

  /** Every catalogue preset can be clicked, and clicking it highlights exactly that preset. */
  lemma PresetClickHighlightsIt(s: Dims, i: nat)
    requires i < |Presets.Catalogue|
    ensures Truthy(Presets.Catalogue[i].w as real) && Truthy(Presets.Catalogue[i].h as real)
    ensures var p := Presets.Catalogue[i];
      var r := PresetClicked(s, p.w as real, p.h as real);
      Presets.ActivePresets(r.ratioW, r.ratioH) == {i}
  {
    Presets.CatalogueWellFormed();
    var p := Presets.Catalogue[i];
    var r := PresetClicked(s, p.w as real, p.h as real);
    assert i in Presets.ActivePresets(r.ratioW, r.ratioH);
  }

  /**
   * On a ratio at least as tall as wide, typing a whole width and then typing
   * back the height it produced changes nothing.
   */
  lemma HeightReentryKeepsWidth(s: Dims, n: int)
    requires n != 0 && 0.0 < s.ratioW <= s.ratioH
    ensures var t := PxWChanged(s, Typed(n as real)); PxHChanged(t, Typed(t.pxH)) == t
  {
    var t := PxWChanged(s, Typed(n as real));
    if Truthy(t.pxH) {
      WidthSurvivesHeightRoundTrip(n, s.ratioW, s.ratioH);
    }
  }

  /**
   * On a ratio at least as wide as tall, typing a whole height and then typing
   * back the width it produced changes nothing.
   */
  lemma WidthReentryKeepsHeight(s: Dims, n: int)
    requires n != 0 && 0.0 < s.ratioH <= s.ratioW
    ensures var t := PxHChanged(s, Typed(n as real)); PxWChanged(t, Typed(t.pxW)) == t
  {
    var t := PxHChanged(s, Typed(n as real));
    if Truthy(t.pxW) {
      HeightSurvivesWidthRoundTrip(n, s.ratioW, s.ratioH);
    }
  }

  /**
   * On a wide ratio the same re-entry can move the anchor: from the starting
   * state, width 1921 derives height 1081, and typing 1081 back derives width 1922.
   */
  lemma WidthDriftsOnWideRatio()
    ensures PxWChanged(Initial, Typed(1921.0)).pxH == 1081.0
    ensures PxHChanged(PxWChanged(Initial, Typed(1921.0)), Typed(1081.0)).pxW == 1922.0
  {
    CalcHeightInIntegers(1921, 16, 9);
    CalcWidthInIntegers(1081, 16, 9);
  }

  /** The calculator's mutable state, one field per state cell. */
  class Calculator {
    var ratioW: real
    var ratioH: real
    var pxW: real
    var pxH: real

    function Snapshot(): Dims
      reads this
    {
      Dims(ratioW, ratioH, pxW, pxH)
    }

    constructor ()
      ensures Snapshot() == Initial
      ensures HeightFollowsWidth(Snapshot()) && WidthFollowsHeight(Snapshot())
    {
      ratioW, ratioH := 16.0, 9.0;
      pxW, pxH := 1920.0, 1080.0;
      InitialConsistent();
    }

    method HandleRatioChange(newW: Field, newH: Field)
      modifies this
      ensures ratioW == ToNumber(newW) && ratioH == ToNumber(newH) && pxW == old(pxW)
      ensures pxH == if Truthy(ratioW) && Truthy(ratioH) && Truthy(pxW)
                     then CalcHeight(pxW, ratioW, ratioH) else old(pxH)
      ensures Snapshot() == RatioChanged(old(Snapshot()), newW, newH)
    {
      var w := ToNumber(newW);
      var h := ToNumber(newH);
      ratioW := w;
      ratioH := h;
      if Truthy(w) && Truthy(h) && Truthy(pxW) {
        pxH := CalcHeight(pxW, w, h);
      }
    }

    method HandlePresetClick(w: real, h: real)
      requires Truthy(w) && Truthy(h)
      modifies this
      ensures ratioW == w && ratioH == h && pxW == old(pxW)
      ensures pxH == if Truthy(pxW) then CalcHeight(pxW, w, h) else old(pxH)
      ensures Snapshot() == PresetClicked(old(Snapshot()), w, h)
    {
      ratioW := w;
      ratioH := h;
      if Truthy(pxW) {
        pxH := CalcHeight(pxW, w, h);
      }
    }

    method HandlePxWChange(v: Field)
      modifies this
      ensures pxW == ToNumber(v) && ratioW == old(ratioW) && ratioH == old(ratioH)
      ensures pxH == if Truthy(pxW) && Truthy(ratioW) && Truthy(ratioH)
                     then CalcHeight(pxW, ratioW, ratioH) else old(pxH)
      ensures Snapshot() == PxWChanged(old(Snapshot()), v)
    {
      var val := ToNumber(v);
      pxW := val;
      if Truthy(val) && Truthy(ratioW) && Truthy(ratioH) {
        pxH := CalcHeight(val, ratioW, ratioH);
      }
    }

    method HandlePxHChange(v: Field)
      modifies this
      ensures pxH == ToNumber(v) && ratioW == old(ratioW) && ratioH == old(ratioH)
      ensures pxW == if Truthy(pxH) && Truthy(ratioW) && Truthy(ratioH)
                     then CalcWidth(pxH, ratioW, ratioH) else old(pxW)
      ensures Snapshot() == PxHChanged(old(Snapshot()), v)
    {
      var val := ToNumber(v);
      pxH := val;
      if Truthy(val) && Truthy(ratioW) && Truthy(ratioH) {
        pxW := CalcWidth(val, ratioW, ratioH);
      }
    }

    method HandleSwap()
      modifies this
      ensures ratioW == old(ratioH) && ratioH == old(ratioW)
      ensures pxW == old(pxH) && pxH == old(pxW)
      ensures Snapshot() == Swapped(old(Snapshot()))
    {
      var oldRW := ratioW;
      ratioW := ratioH;
      ratioH := oldRW;
      var oldPxW := pxW;
      pxW := pxH;
      pxH := oldPxW;
    }
  }
}

=== FILE: text.dfy ===
/**
 * How a JavaScript number becomes text (String(x), template literals and
 * canvas fillText all use the same conversion), and the inverse reading of a
 * run of decimal digits.
 */
module Text {

  predicate IsDigit(c: char) {
    '0' <= c <= '9'
  }

  predicate AllDigits(s: string) {
    forall i :: 0 <= i < |s| ==> IsDigit(s[i])
  }

  function DigitChar(d: nat): (c: char)
    requires d < 10
    ensures IsDigit(c) && c as int - '0' as int == d
  {
    ('0' as int + d) as char
  }

  function DigitValue(c: char): (d: nat)
    requires IsDigit(c)
    ensures d < 10 && DigitChar(d) == c
  {
    c as int - '0' as int
  }

  /** The decimal numeral of n, without leading zeros. */
  function NatText(n: nat): (s: string)
    ensures |s| >= 1 && AllDigits(s)
    ensures s[0] == '0' <==> n == 0
    ensures n == 0 ==> s == "0"
  {
    if n < 10 then [DigitChar(n)] else NatText(n / 10) + [DigitChar(n % 10)]
  }

  /** The number a run of decimal digits denotes. */
  function DigitsValue(s: string): nat
    requires AllDigits(s)
  {
    if s == [] then 0 else DigitsValue(s[..|s| - 1]) * 10 + DigitValue(s[|s| - 1])
  }

  /** Reading the numeral of n gives n back. */
  lemma {:induction false} NatTextRoundTrip(n: nat)
    ensures DigitsValue(NatText(n)) == n
  {
    var s := NatText(n);
    if n < 10 {
      assert s[..|s| - 1] == [];
    } else {
      NatTextRoundTrip(n / 10);
      assert s[..|s| - 1] == NatText(n / 10);
    }
  }

  /** Distinct numbers have distinct numerals. */
  lemma NatTextInjective(m: nat, n: nat)
    requires NatText(m) == NatText(n)
    ensures m == n
  {
    NatTextRoundTrip(m);
    NatTextRoundTrip(n);
  }

  /** Up to `fuel` decimal digits of a fraction in [0, 1), stopping once it is exhausted. */
  function FractionText(f: real, fuel: nat): (s: string)
    requires 0.0 <= f < 1.0
    ensures |s| <= fuel && AllDigits(s)
    ensures s == [] <==> f == 0.0 || fuel == 0
    decreases fuel
  {
    if f == 0.0 || fuel == 0 then ""
    else
      var d := (f * 10.0).Floor;
      [DigitChar(d)] + FractionText(f * 10.0 - d as real, fuel - 1)
  }

  function Pow10(k: nat): (p: nat)
    ensures p >= 1
  {
    if k == 0 then 1 else 10 * Pow10(k - 1)
  }

  /** A digit put in front of a run weighs 10 to the run's length. */
  lemma {:induction false} DigitsValuePrepend(c: char, s: string)
    requires IsDigit(c) && AllDigits(s)
    ensures DigitsValue([c] + s) == DigitValue(c) * Pow10(|s|) + DigitsValue(s)
  {
    var t := [c] + s;
    if s == [] {
      assert t[..|t| - 1] == [];
    } else {
      var init := s[..|s| - 1];
      assert t[..|t| - 1] == [c] + init;
      DigitsValuePrepend(c, init);
      var e := DigitValue(s[|s| - 1]);
      assert DigitsValue(s) == DigitsValue(init) * 10 + e;
      assert Pow10(|s|) == Pow10(|init|) * 10;
      ShiftDigit(DigitValue(c), Pow10(|init|), DigitsValue(init), e);
    }
  }

  /** Appending a digit e multiplies what came before by ten. */
  lemma ShiftDigit(a: int, p: int, b: int, e: int)
    ensures (a * p + b) * 10 + e == a * (p * 10) + (b * 10 + e)
  {
  }

  /** One more digit in front keeps the truncation bounds, in plain real arithmetic. */
  lemma TruncationStep(f: real, d: real, v: real, p: real)
    requires p > 0.0
    requires v <= (10.0 * f - d) * p < v + 1.0
    ensures d * p + v <= f * (10.0 * p) < d * p + v + 1.0
  {
    assert (10.0 * f - d) * p == f * (10.0 * p) - d * p;
  }

  /** The whole number v is f * 10^k rounded down. */
  predicate TruncatesTo(f: real, k: nat, v: nat) {
    v as real <= f * Pow10(k) as real < v as real + 1.0
  }

  /** The same step with the digit, the weight and the values as whole numbers. */
  lemma TruncationGlue(f: real, d: nat, k: nat, rest: nat)
    requires TruncatesTo(f * 10.0 - d as real, k, rest)
    ensures TruncatesTo(f, k + 1, d * Pow10(k) + rest)
  {
    var p := Pow10(k);
    var dp := d * p;
    assert dp as real == d as real * p as real;
    assert Pow10(k + 1) as real == 10.0 * p as real;
    TruncationStep(f, d as real, rest as real, p as real);
  }

  /** Read as a whole number, the digits s are f * 10^|s| rounded down. */
  predicate Truncates(s: string, f: real)
    requires AllDigits(s)
  {
    TruncatesTo(f, |s|, DigitsValue(s))
  }

  /** A digit c in front of a run that truncates 10f - c gives a run that truncates f. */
  lemma PrependKeepsTruncation(f: real, c: char, rest: string)
    requires IsDigit(c) && AllDigits(rest)
    requires Truncates(rest, f * 10.0 - DigitValue(c) as real)
    ensures Truncates([c] + rest, f)
  {
    DigitsValuePrepend(c, rest);
    TruncationGlue(f, DigitValue(c), |rest|, DigitsValue(rest));
    assert |[c] + rest| == |rest| + 1;
  }

  /**
   * The fraction digits are f's decimal expansion cut after |s| places: read
   * as a whole number they are f * 10^|s| rounded down.
   */
  lemma {:induction false} FractionTextTruncates(f: real, fuel: nat)
    requires 0.0 <= f < 1.0
    ensures Truncates(FractionText(f, fuel), f)
    decreases fuel
  {
    var s := FractionText(f, fuel);
    if f == 0.0 || fuel == 0 {
      assert DigitsValue(s) == 0 && Pow10(|s|) == 1;
    } else {
      var d := (f * 10.0).Floor;
      var g := f * 10.0 - d as real;
      var c := DigitChar(d);
      assert g == f * 10.0 - DigitValue(c) as real;
      FractionTextTruncates(g, fuel - 1);
      PrependKeepsTruncation(f, c, FractionText(g, fuel - 1));
    }
  }

  /** The whole number v is exactly f * 10^k: f has no decimal digits beyond the k-th. */
  predicate ExactTo(f: real, k: nat, v: nat) {
    v as real == f * Pow10(k) as real
  }

  /** The exact counterpart of TruncationGlue. */
  lemma ExactGlue(f: real, d: nat, k: nat, rest: nat)
    requires ExactTo(f * 10.0 - d as real, k, rest)
    ensures ExactTo(f, k + 1, d * Pow10(k) + rest)
  {
    var p := Pow10(k);
    var dp := d * p;
    assert dp as real == d as real * p as real;
    assert Pow10(k + 1) as real == 10.0 * p as real;
    ExactStep(f, d as real, rest as real, p as real);
  }

  /** One more digit in front keeps an exact expansion exact, in plain real arithmetic. */
  lemma ExactStep(f: real, d: real, v: real, p: real)
    requires v == (f * 10.0 - d) * p
    ensures d * p + v == f * (10.0 * p)
  {
  }

  /** A digit c in front of a run that is exactly 10f - c gives a run that is exactly f. */
  lemma PrependKeepsExact(f: real, c: char, rest: string)
    requires IsDigit(c) && AllDigits(rest)
    requires ExactTo(f * 10.0 - DigitValue(c) as real, |rest|, DigitsValue(rest))
    ensures ExactTo(f, |[c] + rest|, DigitsValue([c] + rest))
  {
    DigitsValuePrepend(c, rest);
    ExactGlue(f, DigitValue(c), |rest|, DigitsValue(rest));
    assert |[c] + rest| == |rest| + 1;
  }

  /**
   * The fraction digits stop early only when they are all of f: either the
   * whole budget is used, or they are f's complete expansion. A non-empty run
   * that stops early ends in a non-zero digit.
   */
  lemma {:induction false} FractionTextComplete(f: real, fuel: nat)
    requires 0.0 <= f < 1.0
    ensures var s := FractionText(f, fuel);
      |s| == fuel || ExactTo(f, |s|, DigitsValue(s))
    ensures var s := FractionText(f, fuel);
      0 < |s| < fuel ==> s[|s| - 1] != '0'
    decreases fuel
  {
    var s := FractionText(f, fuel);
    if f == 0.0 || fuel == 0 {
      assert DigitsValue(s) == 0 && Pow10(|s|) == 1;
    } else {
      var d := (f * 10.0).Floor;
      var g := f * 10.0 - d as real;
      var c := DigitChar(d);
      var rest := FractionText(g, fuel - 1);
      assert g == f * 10.0 - DigitValue(c) as real;
      assert s == [c] + rest;
      FractionTextComplete(g, fuel - 1);
      if |rest| < fuel - 1 {
        PrependKeepsExact(f, c, rest);
      }
      if rest == [] && |s| < fuel {
        assert g == 0.0;
        assert d != 0;
      }
    }
  }

  /** Text of a non-negative number: integer part, then the fraction digits if there are any. */
  function UnsignedText(x: real): (t: string)
    requires x >= 0.0
    ensures |t| >= 1 && IsDigit(t[0])
    ensures forall i :: 0 <= i < |t| ==> IsDigit(t[i]) || t[i] == '.'
  {
    var n := x.Floor;
    if x == n as real then NatText(n) else NatText(n) + "." + FractionText(x - n as real, 20)
  }

  /** String(x) for a finite number x: a minus sign exactly for negatives, then digits and a point. */
  function NumberText(x: real): (t: string)
    ensures |t| >= 1 && (t[0] == '-' <==> x < 0.0)
    ensures x >= 0.0 ==> IsDigit(t[0])
    ensures x < 0.0 ==> |t| >= 2 && IsDigit(t[1])
    ensures forall i :: 0 < i < |t| ==> IsDigit(t[i]) || t[i] == '.'
  {
    if x < 0.0 then "-" + UnsignedText(-x) else UnsignedText(x)
  }

  /** A whole non-negative number prints as its plain decimal numeral. */
  lemma NumberTextOfNat(n: nat)
    ensures NumberText(n as real) == NatText(n)
  {
  }

  /** Where c first occurs in s, or |s| when it does not. */
  function IndexOf(s: string, c: char): (k: nat)
    ensures k <= |s|
    ensures forall i :: 0 <= i < k ==> s[i] != c
    ensures k < |s| ==> s[k] == c
  {
    if s == [] then 0 else if s[0] == c then 0 else 1 + IndexOf(s[1..], c)
  }

  /** A separator that does not occur in a is found right after a. */
  lemma IndexOfAfter(a: string, sep: char, b: string)
    requires sep !in a
    ensures IndexOf(a + [sep] + b, sep) == |a|
  {
    var s := a + [sep] + b;
    assert s[|a|] == sep;
    assert forall i :: 0 <= i < |a| ==> s[i] == a[i];
  }

  /** A character that does not occur is reported at the end. */
  lemma IndexOfAbsent(s: string, c: char)
    requires c !in s
    ensures IndexOf(s, c) == |s|
  {
  }

  /** The text of a negative number is a minus sign before the text of its magnitude. */
  lemma NegativeText(x: real)
    requires x < 0.0
    ensures NumberText(x) == "-" + NumberText(-x)
  {
  }

  /** The integer part of a number printed with a fraction, split at the point. */
  lemma FractionalTextSplits(n: nat, f: real)
    requires 0.0 < f < 1.0
    ensures var t := NatText(n) + "." + FractionText(f, 20); var i := IndexOf(t, '.');
      i == |NatText(n)| && t[..i] == NatText(n) && t[i + 1..] == FractionText(f, 20)
  {
    var whole, fraction := NatText(n), FractionText(f, 20);
    assert forall j :: 0 <= j < |whole| ==> IsDigit(whole[j]);
    IndexOfAfter(whole, '.', fraction);
    var t := whole + "." + fraction;
    assert t[..|whole|] == whole;
    assert t[|whole| + 1..] == fraction;
  }

  /** What the twenty-digit fraction budget prints for a fraction strictly between 0 and 1. */
  lemma FractionDigits(f: real)
    requires 0.0 < f < 1.0
    ensures var s := FractionText(f, 20);
      && AllDigits(s) && Truncates(s, f) && 1 <= |s| <= 20
      && (|s| == 20 || ExactTo(f, |s|, DigitsValue(s)))
      && (|s| < 20 ==> s[|s| - 1] != '0')
  {
    FractionTextTruncates(f, 20);
    FractionTextComplete(f, 20);
  }

  /**
   * The text of a non-negative number reads back: the digits before the first
   * point denote the integer part, the digits after it truncate the fraction
   * and are all of it unless the twenty-digit budget ran out, with no trailing
   * zero, and there is a point exactly when the number is not whole.
   */
  lemma NumberTextReadsBack(x: real)
    requires x >= 0.0
    ensures var t := NumberText(x); var i := IndexOf(t, '.'); var n := x.Floor;
      && n >= 0 && AllDigits(t[..i]) && DigitsValue(t[..i]) == n
      && (i == |t| <==> x == n as real)
      && (i < |t| ==> AllDigits(t[i + 1..]) && Truncates(t[i + 1..], x - n as real))
      && (i < |t| ==> 1 <= |t| - i - 1 <= 20)
      && (i < |t| ==> |t| - i - 1 == 20 || ExactTo(x - n as real, |t| - i - 1, DigitsValue(t[i + 1..])))
      && (i < |t| && |t| - i - 1 < 20 ==> t[|t| - 1] != '0')
  {
    var t := NumberText(x);
    var n := x.Floor;
    NatTextRoundTrip(n);
    if x == n as real {
      assert t == NatText(n);
      assert forall j :: 0 <= j < |t| ==> IsDigit(t[j]);
      IndexOfAbsent(t, '.');
      assert t[..|t|] == t;
    } else {
      var f := x - n as real;
      assert t == NatText(n) + "." + FractionText(f, 20);
      FractionalTextSplits(n, f);
      FractionDigits(f);
    }
  }
}
